=== FILE: README.md ===
# Issue tracker request logic, in Dafny

A model of the request handling behind `/api/issues/:project` in the issue
tracker's route file `routes/api.js`. It covers the readiness guard and the
four handlers: create (POST), query (GET), partial update (PUT) and delete
(DELETE). Each handler is a pure function. It takes the store, an
environment, clock readings and the request. It returns a `Step`: an
outcome and the store after the request.

- `issue_model.dfy` (module `IssueModel`) holds the data:
  - the schema fields, the raw values a request carries for them, and the
    casts the document library applies before storing them;
  - the `Issue` record, whose fields may hold null;
  - the store, which is a map from identifier to issue plus the insertion
    order used as the store's natural order;
  - request bodies, the environment and outcomes.
- `issue_api.dfy` (module `IssueApi`) holds the guard and the four handlers,
  plus a dispatcher that routes one request by HTTP method.
- `issue_json.dfy` (module `IssueJson`) holds the JSON response each outcome
  is sent as: status code, exact error strings and key sets.
- `issue_properties.dfy` (module `IssueProperties`) holds lemmas that relate
  several requests, or a request and its response.

Modelling choices:

- The environment `Env(ready, isValid, castDate, fault)` carries four things:
  - the connection flag the guard reads;
  - the identifier syntax check, `mongoose.Types.ObjectId.isValid`, as an
    uninterpreted function parameter;
  - the document library's reading of a non-null value as a date, as a
    function parameter;
  - whether the store round trip of this request throws.
- Stored dates are whole milliseconds from the epoch, negative before it, so a date a client sends may precede 1970. Clock readings are non-negative numbers. A create takes two readings, because the
  route calls `new Date()` once for `created_on` and once for `updated_on`.
  So the model does not promise that the two are equal.
- Request values are raw JSON values: a string, an integer, a boolean or
  null (`IssueModel.Value`).
  - The route tests them before any cast. A create treats `""`, `0`,
    `false` and null as missing. An update drops only `""`.
  - The store then casts them to the schema type (`IssueModel.Cast`):
    - a string field keeps null, keeps a string, and stores a number or a
      boolean as its text;
    - `open` accepts the library's true and false spellings and null;
    - a date field turns null and `""` into null and reads other values
      through `castDate`.
  - A value that does not cast makes the store throw. On a query that is the
    500 "database error". On an update it is the caught "could not update".
  - Stored values may be null (`IssueModel.Stored`), because an update can
    store null in any field.
- The identifier a create assigns is a parameter. If that identifier is
  already stored, the insert fails like any other store error.
- Three behaviours of the route are worth knowing:
  - An update applies every body field except `_id` whose value is not the
    empty string, including `project` and `created_on`. There is no
    allow-list.
  - Because of that, `created_on <= updated_on` is not kept by updates
    (`IssueProperties.UpdateCanReorderTimestamps`).
  - An update that sends null for the title, text or creator succeeds and
    stores null (`IssueProperties.UpdateNullClearsTitle`). A body whose only
    field is null is applied, not answered with "no update field(s) sent".
    So the store invariant that every issue has a non-empty title, text and
    creator holds only while no update sends such a null
    (`IssueApi.RunKeepsWellFormed`).

## Model

| member | source | states |
|---|---|---|
| IssueModel.CastText | routes/api.js:26-36 | a value for a string field is stored as null exactly when it is null, as the empty string exactly when it is the empty string, and a string is kept as sent |
| IssueModel.CastFlag | routes/api.js:32 | a boolean sent for `open` is stored as itself, null stays null, and a cast that succeeds always gives a boolean or null |
| IssueModel.Cast | routes/api.js:26-36 | a value that casts is stored with the type its field's schema gives, or as null; null always casts to null; string fields use the string cast |
| IssueModel.CastAll | routes/api.js:26-36 | a request map casts exactly when each of its values does, and then has the same keys and each value's own cast |
| IssueModel.Apply | routes/api.js:130-132 | applying a cast update document sets exactly the fields it names to its values and keeps every other field; typed issues stay typed |
| IssueApi.Create | routes/api.js:69-108 | not connected: 503, store unchanged; a missing or falsy title, text or creator: "required field(s) missing", store unchanged; success exactly when those pass and the store accepts the insert; then one issue is added under the new identifier and nothing else changes; the new issue holds the string casts of the three required values, which are non-empty, and of the assignee and status, which are empty exactly when not sent or falsy; it is open, has the path's project and the two clock readings; both store invariants are kept |
| IssueApi.Select | routes/api.js:62 | the query result holds exactly the stored issues listed in the order that match every filter pair, with no identifier twice when the order has no repeats |
| IssueApi.QueryFilter | routes/api.js:57-59 | the query filter casts exactly when every pair other than `project` does; an issue then matches it iff its project is the path's and it matches those other pairs |
| IssueApi.Query | routes/api.js:55-67 | the store never changes; not connected: 503; a result exactly when the store does not throw and the non-project pairs cast; the result is exactly the stored issues of the path's project matching every other cast pair, each once on a valid store |
| IssueApi.Sent | routes/api.js:118-121 | keeps exactly the body fields whose value is not the empty string, null included, with their values |
| IssueApi.UpdateDoc | routes/api.js:118-132 | the update document exists exactly when every sent value other than `updated_on` casts; it holds the sent fields and `updated_on`, with the sent values cast and `updated_on` set to the clock reading |
| IssueApi.KeepsRequired | routes/api.js:118-132 | an update that sends no null for the title, text or creator leaves them non-empty |
| IssueApi.Amend | routes/api.js:127-132 | the targeted issue takes the update document's values and keeps its others; every other issue and the order are unchanged; the store invariant is kept |
| IssueApi.Update | routes/api.js:110-139 | the checks run in the route's order: 503, "missing _id", "could not update" for an invalid id, "no update field(s) sent" when every field is the empty string, then "could not update" for a value that does not cast, a store failure or an absent id, all with the store unchanged; on success only the target changes, in each sent field, which takes the cast value, and in `updated_on`, which becomes the clock reading; the store invariant is kept, and non-empty required fields stay so unless the body sends null for one |
| IssueApi.Without | routes/api.js:150 | removing an identifier from the insertion order keeps exactly the other identifiers, without repeats when there were none |
| IssueApi.Delete | routes/api.js:141-157 | 503 when not connected; "missing _id" for a falsy id; otherwise "could not delete" with the store unchanged unless the id is valid, the store does not throw and the issue exists, in which case exactly that issue is removed |
| IssueApi.Dispatch | routes/api.js:51-56 | routing by method keeps the guard's answer for an unconnected store, leaves the store alone on GET, keeps the store invariant, and keeps required fields non-empty unless it is an update sending null for one |
| IssueApi.RunKeepsValid | routes/api.js:52-157 | after any sequence of requests the order lists each stored id once and every stored field holds a value of its schema type or null |
| IssueApi.RunKeepsWellFormed | routes/api.js:69-139 | after any sequence of requests in which no update sends null for the title, text or creator, every stored issue still has a non-empty title, text and creator |
| IssueJson.Name | routes/api.js:26-36 | each schema field has its own JSON key, which reads back to the same field and is never `_id` |
| IssueJson.Encode | routes/api.js:63 | every stored value, null included, is sent as a JSON value that reads back to it |
| IssueJson.DocJson | routes/api.js:62-63 | a queried issue is sent as `_id` plus every schema field, with `__v` dropped, and reads back to the stored issue |
| IssueJson.CreatedJson | routes/api.js:94-104 | the create response carries `_id` and is the full document without `project`; reading it back with the path's project gives the stored issue |
| IssueJson.Render | routes/api.js:40-157 | 503 exactly for the unconnected store, 500 exactly for a store error, 200 otherwise; only a query answers with an array, whose item k is issue k sent as its full document; a create answers with the create response of the new issue; every other non-create body has exactly one of `error` or `result`; every id-bearing outcome echoes `_id` |
| IssueProperties.GuardComesFirst | routes/api.js:40-49 | with the store not connected, every handler answers the guard's outcome whatever its request, leaves the store unchanged, and is sent as 503 with the fixed error and message |
| IssueProperties.CreateMissingResponse | routes/api.js:76-78 | a create lacking a required field is answered with exactly `{error: "required field(s) missing"}` and status 200 |
| IssueProperties.CreateEchoes | tests/2_functional-tests.js:12-52 | the create response echoes title, text, creator, assignee and status as stored, with `""` for an absent assignee or status, carries the new id, `open: true` and both timestamps, and has no `project` |
| IssueProperties.SelectAppend | routes/api.js:62 | selecting over an order with one identifier appended gives the old selection followed by that issue when it matches |
| IssueProperties.SelectIgnoresOthers | routes/api.js:62 | storing an issue whose id is not in the order leaves the selection unchanged |
| IssueProperties.CreateThenQuery | tests/2_functional-tests.js:82-106 | after a create, the query of its project returns the earlier result followed by the new issue when it matches the cast filter |
| IssueProperties.ProjectOverridden | routes/api.js:58-59 | a `project` pair in the query string does not change the query's answer |
| IssueProperties.UpdateMasksFailure | routes/api.js:129-138 | a store failure and a valid but absent id give the same `{error: "could not update", _id}` and leave the store unchanged |
| IssueProperties.UpdateIdempotent | routes/api.js:118-132 | repeating a successful update at the same clock reading succeeds and changes nothing more |
| IssueProperties.UpdateRefreshesTimestamp | routes/api.js:127 | a successful update sets `updated_on` to the clock reading whatever the body says, and keeps `created_on` unless the body sends it |
| IssueProperties.UpdateCanReorderTimestamps | routes/api.js:118-121 | an update carrying a later `created_on` succeeds and leaves `created_on` after `updated_on` |
| IssueProperties.UpdateNullClearsTitle | routes/api.js:118-127 | a body whose one field is a null title is applied, not "no update field(s) sent", and leaves a stored issue without a title |
| IssueProperties.UpdateCastsFalse | routes/api.js:118-132 | `false` sent for the issue text is applied and stored as the string "false" |
| IssueProperties.WithoutLast | routes/api.js:150 | removing an identifier that was appended to an order without it gives the order back |
| IssueProperties.CreateThenDelete | tests/2_functional-tests.js:182-191 | deleting the issue a create just stored succeeds and restores the store as it was before the create |
| IssueProperties.DeleteTwice | tests/2_functional-tests.js:182-203 | deleting the same id a second time is "could not delete" and changes nothing |
| IssueProperties.DeleteThenQuery | routes/api.js:141-157 | after a delete no query returns the deleted issue, and every other issue a query returned before is still returned |

## Left out

- Connection bootstrap, environment variables and logging (`routes/api.js:5-24`) are left out. They are I/O; readiness is the `ready` flag of `Env`.
- Express routing and async plumbing are left out; each handler is a function.
- `mongoose.Types.ObjectId.isValid` is a function parameter, not a definition. Its rule is the library's.
- The library's date parsing is the `castDate` parameter of `Env`, not a definition; it may return any whole millisecond, before the epoch included. Sub-millisecond precision and invalid dates are not representable.
- Request values that are objects, arrays or non-integer numbers are not representable. Neither are query-string values other than strings, such as the arrays a repeated key produces.
- A non-string `_id` is not representable: the body's `_id` is a string or absent.
- Keys outside the schema are not representable, so the library's stripping of unknown keys is left out. This includes `_id` in the query string, by which the route's query would filter on the identifier, and a PUT body holding only unknown keys, which passes the "no update field(s) sent" check and is answered "successfully updated" with only `updated_on` changed.
- A valid id string is the store key itself. The library's mapping of a valid string to an ObjectId, under which a 12-character and a 24-hex string can name the same key, is left out.
- IssueModel.NumText: writes every integer in full, whereas JavaScript writes integers of 10^21 or more in exponent form.
- IssueModel.CastText: stores the text of the integer as sent, whereas the body parser reads JSON numbers as doubles, so an integer beyond 2^53 in magnitude arrives rounded (9007199254740993 is stored as "9007199254740992"); `Num` stands for the number after parsing only within that range.
- IssueJson.Encode: `JDate(t)` stands for the ISO date string `res.json` sends for the date `t`; plain JSON has no date kind, and telling such a string apart from a stored string is left out.
- IssueModel.CastFlag: states the identity on booleans and on null and the type of its result; the full list of accepted spellings is in its definition only.
- `IssueJson.Render`: the 500 response's `message` is the store's own error text and is not modelled. Only its `error` key is.
- `Date` objects are abstract clock readings. Clock resolution and whether the clock is monotonic are left to the caller.
- The store's own ordering is modelled as insertion order. No other sort order is modelled.
- Concurrency between requests is left out. Requests are handled one after another.

=== FILE: issue_api.dfy ===
/** The request handlers of `/api/issues/:project`: the readiness guard and
    the create, query, partial-update and delete operations, each a pure
    function from the store and the request to an outcome and a new store. */
module IssueApi {
  import opened IssueModel

  // ---------------------------------------------------------------- create

  /** A create body lacks field `f` when the key is absent or its value is
      falsy. */
  predicate Lacks(fields: map<Field, Value>, f: Field) {
    f !in fields || Falsy(fields[f])
  }

  predicate MissingRequired(fields: map<Field, Value>) {
    Lacks(fields, IssueTitle) || Lacks(fields, IssueText) || Lacks(fields, CreatedBy)
  }

  /** `x || ""` for an optional string field of a create body, as the
      store then holds it: the empty string when the body lacks the field,
      the string cast of the sent value otherwise. */
  function OrEmpty(fields: map<Field, Value>, f: Field): Stored {
    if Lacks(fields, f) then Text("") else CastText(fields[f])
  }

  /** Handles `POST /api/issues/:project`. `newId` is the identifier the
      store assigns; `createdAt` and `updatedAt` are the two clock readings
      taken for `created_on` and `updated_on`. */
  function Create(s: Store, env: Env, project: string, body: Body,
                  newId: Id, createdAt: nat, updatedAt: nat): (r: Step)
    ensures !env.ready ==> r == Step(Unavailable, s)
    ensures env.ready && MissingRequired(body.fields) ==> r == Step(RequiredMissing, s)
    ensures r.outcome in {Unavailable, RequiredMissing, DatabaseError} || r.outcome.Created?
    ensures !r.outcome.Created? ==> r.store == s
    ensures r.outcome.Created? <==>
      env.ready && !MissingRequired(body.fields) && !env.fault && newId !in s.docs
    ensures r.outcome.Created? ==>
      var i := r.outcome.doc.issue;
      var fields := body.fields;
      && r.outcome.doc.id == newId
      && r.store == Store(s.docs[newId := i], s.order + [newId])
      && WellFormed(i)
      && i.title == CastText(fields[IssueTitle])
      && i.text == CastText(fields[IssueText])
      && i.createdBy == CastText(fields[CreatedBy])
      && (i.assignedTo == Text("") <==> Lacks(fields, AssignedTo))
      && (!Lacks(fields, AssignedTo) ==> i.assignedTo == CastText(fields[AssignedTo]))
      && (i.statusText == Text("") <==> Lacks(fields, StatusText))
      && (!Lacks(fields, StatusText) ==> i.statusText == CastText(fields[StatusText]))
      && i.open == Flag(true)
      && i.createdOn == Time(createdAt) && i.updatedOn == Time(updatedAt)
      && i.project == Text(project)
    ensures Valid(s) ==> Valid(r.store)
    ensures AllWellFormed(s) ==> AllWellFormed(r.store)
  {
    if !env.ready then Step(Unavailable, s)
    else if MissingRequired(body.fields) then Step(RequiredMissing, s)
    else if env.fault || newId in s.docs then Step(DatabaseError, s)
    else
      var fields := body.fields;
      var issue := Issue(
        CastText(fields[IssueTitle]), CastText(fields[IssueText]), CastText(fields[CreatedBy]),
        OrEmpty(fields, AssignedTo), OrEmpty(fields, StatusText),
        Flag(true), Time(createdAt), Time(updatedAt), Text(project));
      Step(Created(Doc(newId, issue)), Store(s.docs[newId := issue], s.order + [newId]))
  }

  // ----------------------------------------------------------------- query

  /** The stored issues, in the order of `order`, that match `filter`. */
  function Select(order: seq<Id>, docs: map<Id, Issue>, filter: map<Field, Stored>): (r: seq<Doc>)
    ensures forall d :: d in r <==>
      d.id in order && d.id in docs && d.issue == docs[d.id] && Matches(d.issue, filter)
    ensures Distinct(order) ==> Distinct(Ids(r))
  {
    if order == [] then []
    else
      var id := order[0];
      var rest := Select(order[1..], docs, filter);
      assert forall x :: x in order <==> x == id || x in order[1..];
      if id in docs && Matches(docs[id], filter) then
        assert forall d :: d in rest ==> d.id in order[1..];
        [Doc(id, docs[id])] + rest
      else rest
  }

  function Ids(ds: seq<Doc>): (r: seq<Id>)
    ensures |r| == |ds|
    ensures forall k :: 0 <= k < |ds| ==> r[k] == ds[k].id
  {
    if ds == [] then [] else [ds[0].id] + Ids(ds[1..])
  }

  /** The query string as raw request values: each value is a string. */
  function Raw(filter: map<Field, string>): map<Field, Value> {
    map f | f in filter :: Str(filter[f])
  }

  /** Whether every pair of the query string other than `project` casts to
      its field's type. */
  predicate FilterCasts(env: Env, filter: map<Field, string>) {
    forall f :: f in filter && f != Project ==> Cast(env, f, Str(filter[f])).Some?
  }

  /** The cast values of the query string's pairs other than `project`. */
  function CastFilter(env: Env, filter: map<Field, string>): map<Field, Stored>
    requires FilterCasts(env, filter)
  {
    map f | f in filter && f != Project :: Cast(env, f, Str(filter[f])).value
  }

  /** The filter the query handler hands to the store, after the store has
      cast it: the query string's pairs with `project` forced to the path
      parameter. `None` when a pair does not cast. */
  function QueryFilter(env: Env, filter: map<Field, string>, project: string)
    : (r: Option<map<Field, Stored>>)
    ensures r.Some? <==> FilterCasts(env, filter)
    ensures r.Some? ==> forall i :: Matches(i, r.value) <==>
      i.project == Text(project) && Matches(i, CastFilter(env, filter))
  {
    var raw := Raw(filter[Project := project]);
    var c := CastAll(env, raw);
    assert Cast(env, Project, raw[Project]) == Some(Text(project));
    assert forall f :: f in filter && f != Project ==> f in raw && raw[f] == Str(filter[f]);
    if c.Some? then
      assert forall i :: Matches(i, c.value) ==> Get(i, Project) == Text(project);
      assert forall f :: f in c.value && f != Project ==>
        f in CastFilter(env, filter) && c.value[f] == CastFilter(env, filter)[f];
      c
    else c
  }

  /** Handles `GET /api/issues/:project` with the query string `filter`. */
  function Query(s: Store, env: Env, project: string, filter: map<Field, string>): (r: Step)
    ensures r.store == s
    ensures !env.ready ==> r.outcome == Unavailable
    ensures r.outcome in {Unavailable, DatabaseError} || r.outcome.Found?
    ensures r.outcome.Found? <==> env.ready && !env.fault && FilterCasts(env, filter)
    ensures r.outcome.Found? ==> forall d :: d in r.outcome.docs <==>
      && d.id in s.order && d.id in s.docs && d.issue == s.docs[d.id]
      && d.issue.project == Text(project) && Matches(d.issue, CastFilter(env, filter))
    ensures r.outcome.Found? && Valid(s) ==> Distinct(Ids(r.outcome.docs))
  {
    if !env.ready then Step(Unavailable, s)
    else
      var f := QueryFilter(env, filter, project);
      if env.fault || f.None? then Step(DatabaseError, s)
      else Step(Found(Select(s.order, s.docs, f.value)), s)
  }

  // ---------------------------------------------------------------- update

  /** The body fields an update applies: every field whose value is not the
      empty string, null included. */
  function Sent(fields: map<Field, Value>): (u: map<Field, Value>)
    ensures u.Keys <= fields.Keys
    ensures forall f :: f in fields ==> (f in u <==> fields[f] != Str(""))
    ensures forall f :: f in u ==> u[f] == fields[f]
  {
    map f | f in fields && fields[f] != Str("") :: fields[f]
  }

  /** Whether every value an update applies casts to its field's type. The
      route overwrites `updated_on` before the store casts anything. */
  predicate UpdateCasts(env: Env, fields: map<Field, Value>) {
    forall f :: f in fields && f != UpdatedOn && fields[f] != Str("") ==> Cast(env, f, fields[f]).Some?
  }

  /** Whether an update body sends null for a field a create requires. */
  predicate ClearsRequired(fields: map<Field, Value>) {
    || (IssueTitle in fields && fields[IssueTitle] == Null)
    || (IssueText in fields && fields[IssueText] == Null)
    || (CreatedBy in fields && fields[CreatedBy] == Null)
  }

  /** The store after the cast update document `u` is applied to issue
      `id`. */
  function Amend(s: Store, id: Id, u: map<Field, Stored>): (r: Store)
    requires id in s.docs && AllFit(u)
    ensures r.order == s.order
    ensures r.docs.Keys == s.docs.Keys
    ensures forall k :: k in s.docs && k != id ==> r.docs[k] == s.docs[k]
    ensures forall f :: Get(r.docs[id], f) == if f in u then u[f] else Get(s.docs[id], f)
    ensures Valid(s) ==> Valid(r)
  {
    Store(s.docs[id := Apply(s.docs[id], u)], s.order)
  }

  /** The update document the route hands to the store, after the store
      has cast it: the sent fields other than `updated_on`, cast, and
      `updated_on` set to the clock reading. `None` when a value does not
      cast. */
  function UpdateDoc(env: Env, fields: map<Field, Value>, now: nat): (r: Option<map<Field, Stored>>)
    ensures r.Some? <==> UpdateCasts(env, fields)
    ensures r.Some? ==> AllFit(r.value) && r.value.Keys == Sent(fields).Keys + {UpdatedOn}
    ensures r.Some? ==> r.value[UpdatedOn] == Time(now)
    ensures r.Some? ==> forall f :: f in fields && f != UpdatedOn && fields[f] != Str("") ==>
      r.value[f] == Cast(env, f, fields[f]).value
  {
    var sent := Sent(fields) - {UpdatedOn};
    assert forall f :: f in sent <==> f in fields && f != UpdatedOn && fields[f] != Str("");
    assert forall f :: f in sent ==> sent[f] == fields[f];
    var c := CastAll(env, sent);
    if c.Some? then
      assert Fits(UpdatedOn, Time(now));
      Some(c.value[UpdatedOn := Time(now)])
    else None
  }

  /** Applying the cast update document to a well-formed issue keeps its
      title, text and creator non-empty unless the body sends null for one
      of them. */
  lemma KeepsRequired(i: Issue, env: Env, fields: map<Field, Value>, now: nat)
    requires UpdateDoc(env, fields, now).Some?
    ensures WellFormed(i) && !ClearsRequired(fields) ==> WellFormed(Apply(i, UpdateDoc(env, fields, now).value))
  {
    var u := UpdateDoc(env, fields, now).value;
    var r := Apply(i, u);
    assert Get(r, IssueTitle) == r.title && Get(r, IssueText) == r.text && Get(r, CreatedBy) == r.createdBy;
  }

  /** Handles `PUT /api/issues/:project`; `now` is the clock reading taken
      for `updated_on`. */
  function Update(s: Store, env: Env, body: Body, now: nat): (r: Step)
    ensures !env.ready ==> r == Step(Unavailable, s)
    ensures env.ready && !HasId(body) ==> r == Step(MissingId, s)
    ensures env.ready && HasId(body) && !env.isValid(body.id.value) ==>
      r == Step(CouldNotUpdate(body.id.value), s)
    ensures env.ready && HasId(body) && env.isValid(body.id.value) && Sent(body.fields) == map[] ==>
      r == Step(NoUpdateFields(body.id.value), s)
    ensures env.ready && HasId(body) && !r.outcome.Updated? && Sent(body.fields) != map[] ==>
      r == Step(CouldNotUpdate(body.id.value), s)
    ensures !r.outcome.Updated? ==> r.store == s
    ensures r.outcome.Updated? <==>
      && env.ready && HasId(body) && env.isValid(body.id.value)
      && Sent(body.fields) != map[] && UpdateCasts(env, body.fields)
      && !env.fault && body.id.value in s.docs
    ensures r.outcome.Updated? ==>
      var id := body.id.value;
      && r.outcome.id == id
      && r.store.order == s.order
      && r.store.docs.Keys == s.docs.Keys
      && (forall k :: k in s.docs && k != id ==> r.store.docs[k] == s.docs[k])
      && (forall f :: Get(r.store.docs[id], f) ==
            if f == UpdatedOn then Time(now)
            else if f in body.fields && body.fields[f] != Str("") then Cast(env, f, body.fields[f]).value
            else Get(s.docs[id], f))
    ensures Valid(s) ==> Valid(r.store)
    ensures AllWellFormed(s) && !ClearsRequired(body.fields) ==> AllWellFormed(r.store)
  {
    if !env.ready then Step(Unavailable, s)
    else if !HasId(body) then Step(MissingId, s)
    else
      var id := body.id.value;
      if !env.isValid(id) then Step(CouldNotUpdate(id), s)
      else
        if Sent(body.fields) == map[] then Step(NoUpdateFields(id), s)
        else
          var u := UpdateDoc(env, body.fields, now);
          if env.fault || u.None? || id !in s.docs then Step(CouldNotUpdate(id), s)
          else
            KeepsRequired(s.docs[id], env, body.fields, now);
            Step(Updated(id), Amend(s, id, u.value))
  }

  // ---------------------------------------------------------------- delete

  /** `ids` with every occurrence of `id` removed. */
  function Without(ids: seq<Id>, id: Id): (r: seq<Id>)
    ensures forall x :: x in r <==> x in ids && x != id
    ensures Distinct(ids) ==> Distinct(r)
    ensures |r| <= |ids|
  {
    if ids == [] then []
    else
      var rest := Without(ids[1..], id);
      assert forall x :: x in ids <==> x == ids[0] || x in ids[1..];
      if ids[0] == id then rest
      else
        assert Distinct(ids) ==> ids[0] !in ids[1..] && Distinct(ids[1..]) by {
          if Distinct(ids) {
            forall k | 0 <= k < |ids| - 1 ensures ids[1..][k] != ids[0] {
              assert ids[1..][k] == ids[k + 1];
            }
          }
        }
        [ids[0]] + rest
  }

  /** Handles `DELETE /api/issues/:project`. */
  function Delete(s: Store, env: Env, body: Body): (r: Step)
    ensures !env.ready ==> r == Step(Unavailable, s)
    ensures env.ready && !HasId(body) ==> r == Step(MissingId, s)
    ensures env.ready && HasId(body) && !r.outcome.Deleted? ==>
      r == Step(CouldNotDelete(body.id.value), s)
    ensures r.outcome.Deleted? <==>
      env.ready && HasId(body) && env.isValid(body.id.value) && !env.fault && body.id.value in s.docs
    ensures r.outcome.Deleted? ==>
      var id := body.id.value;
      && r.outcome.id == id
      && r.store.docs == s.docs - {id}
      && (forall x :: x in r.store.order <==> x in s.order && x != id)
    ensures Valid(s) ==> Valid(r.store)
  {
    if !env.ready then Step(Unavailable, s)
    else if !HasId(body) then Step(MissingId, s)
    else
      var id := body.id.value;
      if !env.isValid(id) || env.fault || id !in s.docs then Step(CouldNotDelete(id), s)
      else Step(Deleted(id), Store(s.docs - {id}, Without(s.order, id)))
  }

  // -------------------------------------------------------------- routing

  /** One request to `/api/issues/:project`, with what its handler reads
      from outside the request: the environment and the clock readings. */
  datatype Request =
    | PostReq(env: Env, project: string, body: Body, newId: Id, createdAt: nat, updatedAt: nat)
    | GetReq(env: Env, project: string, filter: map<Field, string>)
    | PutReq(env: Env, body: Body, now: nat)
    | DeleteReq(env: Env, body: Body)

  /** Whether a request is an update that sends null for a required
      field. */
  predicate ClearsField(req: Request) {
    req.PutReq? && ClearsRequired(req.body.fields)
  }

  /** Routes a request to its handler by HTTP method. */
  function Dispatch(s: Store, req: Request): (r: Step)
    ensures !req.env.ready ==> r.outcome == Unavailable && r.store == s
    ensures req.GetReq? ==> r.store == s
    ensures Valid(s) ==> Valid(r.store)
    ensures AllWellFormed(s) && !ClearsField(req) ==> AllWellFormed(r.store)
  {
    match req
    case PostReq(env, project, body, newId, createdAt, updatedAt) =>
      Create(s, env, project, body, newId, createdAt, updatedAt)
    case GetReq(env, project, filter) => Query(s, env, project, filter)
    case PutReq(env, body, now) => Update(s, env, body, now)
    case DeleteReq(env, body) => Delete(s, env, body)
  }

  /** The store after a sequence of requests, handled one after another. */
  function Run(s: Store, reqs: seq<Request>): Store
    decreases |reqs|
  {
    if reqs == [] then s else Run(Dispatch(s, reqs[0]).store, reqs[1..])
  }

  /** Every sequence of requests keeps the store invariant: the insertion
      order lists each stored identifier once, and every field of every
      stored issue holds a value of its schema type or null. */
  lemma {:induction false} RunKeepsValid(s: Store, reqs: seq<Request>)
    requires Valid(s)
    ensures Valid(Run(s, reqs))
    decreases |reqs|
  {
    if reqs != [] {
      RunKeepsValid(Dispatch(s, reqs[0]).store, reqs[1..]);
    }
  }

  /** Every stored issue keeps a non-empty title, text and creator through
      any sequence of requests in which no update sends null for one of
      them. */
  lemma {:induction false} RunKeepsWellFormed(s: Store, reqs: seq<Request>)
    requires AllWellFormed(s)
    requires forall k :: 0 <= k < |reqs| ==> !ClearsField(reqs[k])
    ensures AllWellFormed(Run(s, reqs))
    decreases |reqs|
  {
    if reqs != [] {
      assert !ClearsField(reqs[0]);
      assert forall k :: 0 <= k < |reqs[1..]| ==> reqs[1..][k] == reqs[k + 1];
      RunKeepsWellFormed(Dispatch(s, reqs[0]).store, reqs[1..]);
    }
  }
}

=== FILE: issue_json.dfy ===
/** The JSON responses the handlers send: status code and body for every
    outcome, with the exact error strings and key sets of the route file. */
module IssueJson {
  import opened IssueModel

  datatype Json =
    | JStr(s: string)
    | JBool(b: bool)
    | JDate(t: int)
    | JNull
    | JArr(items: seq<Json>)
    | JObj(members: map<string, Json>)

  datatype Response = Response(status: nat, body: Json)

  const UnavailableMessage: string :=
    "MongoDB is not connected. Please configure MONGO_URI environment variable."

  /** The key a schema field has in a JSON document. */
  function Name(f: Field): (n: string)
    ensures FieldNamed(n) == Some(f)
    ensures n != "_id"
  {
    match f
    case IssueTitle => "issue_title"
    case IssueText => "issue_text"
    case CreatedBy => "created_by"
    case AssignedTo => "assigned_to"
    case StatusText => "status_text"
    case Open => "open"
    case CreatedOn => "created_on"
    case UpdatedOn => "updated_on"
    case Project => "project"
  }

  /** The schema field a JSON key names, if any. */
  function FieldNamed(n: string): Option<Field> {
    if n == "issue_title" then Some(IssueTitle)
    else if n == "issue_text" then Some(IssueText)
    else if n == "created_by" then Some(CreatedBy)
    else if n == "assigned_to" then Some(AssignedTo)
    else if n == "status_text" then Some(StatusText)
    else if n == "open" then Some(Open)
    else if n == "created_on" then Some(CreatedOn)
    else if n == "updated_on" then Some(UpdatedOn)
    else if n == "project" then Some(Project)
    else None
  }

  /** Every schema field. */
  const AllFields: set<Field> :=
    {IssueTitle, IssueText, CreatedBy, AssignedTo, StatusText, Open, CreatedOn, UpdatedOn, Project}

  /** `AllFields` lists every schema field. */
  lemma EveryField(f: Field)
    ensures f in AllFields
  {
    match f
    case IssueTitle =>
    case IssueText =>
    case CreatedBy =>
    case AssignedTo =>
    case StatusText =>
    case Open =>
    case CreatedOn =>
    case UpdatedOn =>
    case Project =>
  }

  /** The JSON a stored value is sent as. */
  function Encode(v: Stored): (j: Json)
    ensures Decode(j) == Some(v)
  {
    match v
    case Text(t) => JStr(t)
    case Flag(b) => JBool(b)
    case Time(t) => JDate(t)
    case Nil => JNull
  }

  /** The stored value a JSON scalar stands for. */
  function Decode(j: Json): Option<Stored> {
    match j
    case JStr(t) => Some(Text(t))
    case JBool(b) => Some(Flag(b))
    case JDate(t) => Some(Time(t))
    case JNull => Some(Nil)
    case _ => None
  }

  /** The fields `fs` of an issue, each under its JSON key. */
  function FieldsJson(i: Issue, fs: set<Field>): (m: map<string, Json>)
    ensures forall f :: f in fs ==> Name(f) in m && m[Name(f)] == Encode(Get(i, f))
    ensures forall k :: k in m ==> FieldNamed(k).Some? && FieldNamed(k).value in fs
  {
    map f | f in fs :: Name(f) := Encode(Get(i, f))
  }

  /** A stored issue as the query handler returns it: `_id` and every
      schema field. */
  function DocJson(d: Doc): (m: map<string, Json>)
    ensures "_id" in m && m["_id"] == JStr(d.id)
    ensures forall f :: Name(f) in m && m[Name(f)] == Encode(Get(d.issue, f))
    ensures forall k :: k in m ==> k == "_id" || FieldNamed(k).Some?
    ensures ReadDoc(m) == Some(d)
  {
    var i := d.issue;
    var m := FieldsJson(i, AllFields)["_id" := JStr(d.id)];
    forall f ensures f in AllFields { EveryField(f); }
    ReadsBack(m, d);
    m
  }

  /** A new issue as the create handler returns it: `_id` and every schema
      field but `project`, which the handler does not list. */
  function CreatedJson(d: Doc): (m: map<string, Json>)
    ensures "_id" in m && m["_id"] == JStr(d.id)
    ensures Name(Project) !in m && m[Name(Project) := Encode(d.issue.project)] == DocJson(d)
    ensures ReadCreated(m, d.issue.project) == Some(d)
  {
    var m := FieldsJson(d.issue, AllFields - {Project})["_id" := JStr(d.id)];
    AddsField(d.issue, AllFields, Project);
    ReadsBackCreated(d, m);
    m
  }

  /** Rendering the fields `fs` is rendering `fs` without `g` and then
      adding `g` under its key. */
  lemma AddsField(i: Issue, fs: set<Field>, g: Field)
    requires g in fs
    ensures Name(g) !in FieldsJson(i, fs - {g})
    ensures FieldsJson(i, fs - {g})[Name(g) := Encode(Get(i, g))] == FieldsJson(i, fs)
  {
    var a := FieldsJson(i, fs - {g})[Name(g) := Encode(Get(i, g))];
    var b := FieldsJson(i, fs);
    forall k | k in b ensures k in a && a[k] == b[k] {
      if k != Name(g) {
        var f := FieldNamed(k).value;
        assert Name(f) == k;
      }
    }
  }

  /** The create response, with the path's project added back, reads
      back to the stored document. */
  lemma ReadsBackCreated(d: Doc, m: map<string, Json>)
    requires m == FieldsJson(d.issue, AllFields - {Project})["_id" := JStr(d.id)]
    ensures ReadCreated(m, d.issue.project) == Some(d)
  {
    var m2 := m[Name(Project) := Encode(d.issue.project)];
    forall f ensures Name(f) in m2 && m2[Name(f)] == Encode(Get(d.issue, f)) {
      EveryField(f);
    }
    ReadsBack(m2, d);
  }

  /** The stored value under key `k`, if the key is there and holds a
      scalar. */
  function ValueAt(m: map<string, Json>, k: string): Option<Stored> {
    if k in m then Decode(m[k]) else None
  }

  /** Reads a queried document back into the issue it describes. */
  function ReadDoc(m: map<string, Json>): Option<Doc> {
    var title := ValueAt(m, Name(IssueTitle));
    var text := ValueAt(m, Name(IssueText));
    var creator := ValueAt(m, Name(CreatedBy));
    var to := ValueAt(m, Name(AssignedTo));
    var status := ValueAt(m, Name(StatusText));
    var open := ValueAt(m, Name(Open));
    var created := ValueAt(m, Name(CreatedOn));
    var updated := ValueAt(m, Name(UpdatedOn));
    var project := ValueAt(m, Name(Project));
    if && "_id" in m && m["_id"].JStr?
       && title.Some? && text.Some? && creator.Some? && to.Some? && status.Some?
       && open.Some? && created.Some? && updated.Some? && project.Some?
    then Some(Doc(m["_id"].s, Issue(title.value, text.value, creator.value, to.value, status.value,
                                    open.value, created.value, updated.value, project.value)))
    else None
  }

  /** A document that holds `_id` and every schema field of `d`, encoded,
      reads back to `d`. */
  lemma ReadsBack(m: map<string, Json>, d: Doc)
    requires "_id" in m && m["_id"] == JStr(d.id)
    requires forall f :: Name(f) in m && m[Name(f)] == Encode(Get(d.issue, f))
    ensures ReadDoc(m) == Some(d)
  {
    var i := d.issue;
    assert ValueAt(m, Name(IssueTitle)) == Some(i.title);
    assert ValueAt(m, Name(IssueText)) == Some(i.text);
    assert ValueAt(m, Name(CreatedBy)) == Some(i.createdBy);
    assert ValueAt(m, Name(AssignedTo)) == Some(i.assignedTo);
    assert ValueAt(m, Name(StatusText)) == Some(i.statusText);
    assert ValueAt(m, Name(Open)) == Some(i.open);
    assert ValueAt(m, Name(CreatedOn)) == Some(i.createdOn);
    assert ValueAt(m, Name(UpdatedOn)) == Some(i.updatedOn);
    assert ValueAt(m, Name(Project)) == Some(i.project);
  }

  /** Reads a create response back into the issue it describes; the
      project is not in the response, so the caller supplies it. */
  function ReadCreated(m: map<string, Json>, project: Stored): Option<Doc> {
    ReadDoc(m[Name(Project) := Encode(project)])
  }

  function ErrorBody(message: string): Json {
    JObj(map["error" := JStr(message)])
  }

  function ErrorWithId(message: string, id: Id): Json {
    JObj(map["error" := JStr(message), "_id" := JStr(id)])
  }

  function ResultWithId(message: string, id: Id): Json {
    JObj(map["result" := JStr(message), "_id" := JStr(id)])
  }

  /** The response a handler sends for an outcome. The message of a store
      error is the store's own text and is not modelled. */
  function Render(o: Outcome): (r: Response)
    ensures r.status == 503 <==> o == Unavailable
    ensures r.status == 500 <==> o == DatabaseError
    ensures r.status in {200, 500, 503}
    ensures r.body.JArr? <==> o.Found?
    ensures o.Found? ==> |r.body.items| == |o.docs|
    ensures o.Found? ==> forall k :: 0 <= k < |o.docs| ==> r.body.items[k] == JObj(DocJson(o.docs[k]))
    ensures o.Created? ==> r == Response(200, JObj(CreatedJson(o.doc)))
    ensures !o.Found? ==> r.body.JObj?
    ensures !o.Found? && !o.Created? ==>
      && ("error" in r.body.members <==> !o.Updated? && !o.Deleted?)
      && ("result" in r.body.members <==> o.Updated? || o.Deleted?)
    ensures o.NoUpdateFields? || o.CouldNotUpdate? || o.Updated? || o.CouldNotDelete? || o.Deleted? ==>
      "_id" in r.body.members && r.body.members["_id"] == JStr(o.id)
  {
    match o
    case Unavailable =>
      Response(503, JObj(map["error" := JStr("database unavailable"),
                             "message" := JStr(UnavailableMessage)]))
    case DatabaseError => Response(500, ErrorBody("database error"))
    case RequiredMissing => Response(200, ErrorBody("required field(s) missing"))
    case Created(d) => Response(200, JObj(CreatedJson(d)))
    case Found(ds) => Response(200, JArr(seq(|ds|, k requires 0 <= k < |ds| => JObj(DocJson(ds[k])))))
    case MissingId => Response(200, ErrorBody("missing _id"))
    case NoUpdateFields(id) => Response(200, ErrorWithId("no update field(s) sent", id))
    case CouldNotUpdate(id) => Response(200, ErrorWithId("could not update", id))
    case Updated(id) => Response(200, ResultWithId("successfully updated", id))
    case CouldNotDelete(id) => Response(200, ErrorWithId("could not delete", id))
    case Deleted(id) => Response(200, ResultWithId("successfully deleted", id))
  }
}

=== FILE: issue_model.dfy ===
/** The data the issue tracker works on: the fields of the issue schema, the
    raw values a request can carry for them, the document library's casts
    from raw values to stored ones, the stored issue record, the store of
    issues, request bodies and the outcomes a handler reports. */
module IssueModel {

  datatype Option<+T> = None | Some(value: T)

  /** An issue identifier as a client sends it in `_id`. */
  type Id = string

  /** The fields of the issue schema. */
  datatype Field =
    | IssueTitle | IssueText | CreatedBy | AssignedTo | StatusText
    | Open | CreatedOn | UpdatedOn | Project

  /** A raw request value: a JSON string, integer, boolean or null. */
  datatype Value = Str(s: string) | Num(n: int) | Bool(b: bool) | Null

  /** JavaScript falsiness of a raw value. */
  predicate Falsy(v: Value) {
    v == Str("") || v == Num(0) || v == Bool(false) || v == Null
  }

  /** A stored value: a string, a boolean, a date as milliseconds from the
      epoch (negative before it), or null. */
  datatype Stored = Text(s: string) | Flag(b: bool) | Time(t: int) | Nil

  /** Whether stored value `v` has the type the schema gives field `f`;
      null suits every field. */
  predicate Fits(f: Field, v: Stored) {
    match f
    case Open => v.Flag? || v.Nil?
    case CreatedOn | UpdatedOn => v.Time? || v.Nil?
    case _ => v.Text? || v.Nil?
  }

  predicate AllFit(m: map<Field, Stored>) {
    forall f :: f in m ==> Fits(f, m[f])
  }

  function DigitsOf(n: nat): (r: string)
    ensures |r| > 0
  {
    var d := ["0", "1", "2", "3", "4", "5", "6", "7", "8", "9"][n % 10];
    if n < 10 then d else DigitsOf(n / 10) + d
  }

  /** JavaScript's `toString` of an integer. */
  function NumText(n: int): string {
    if n < 0 then "-" + DigitsOf(-n) else DigitsOf(n)
  }

  /** The library's cast to a string path: null stays null; strings are
      kept; numbers and booleans become their `toString`. */
  function CastText(v: Value): (r: Stored)
    ensures r.Nil? <==> v == Null
    ensures r.Text? && r.s == "" <==> v == Str("")
    ensures v.Str? ==> r == Text(v.s)
  {
    match v
    case Str(s) => Text(s)
    case Num(n) => Text(NumText(n))
    case Bool(b) => Text(if b then "true" else "false")
    case Null => Nil
  }

  /** The library's cast to a boolean path: the values it reads as true or
      false, null, and a cast error for anything else. */
  function CastFlag(v: Value): (r: Option<Stored>)
    ensures v.Bool? ==> r == Some(Flag(v.b))
    ensures v == Null ==> r == Some(Nil)
    ensures r.Some? ==> r.value.Flag? || r.value.Nil?
  {
    if v in {Bool(true), Str("true"), Num(1), Str("1"), Str("yes")} then Some(Flag(true))
    else if v in {Bool(false), Str("false"), Num(0), Str("0"), Str("no")} then Some(Flag(false))
    else if v == Null then Some(Nil)
    else None
  }

  /** The cast the store applies to a raw value sent for field `f`; `None`
      is a cast error. A date field reads null and the empty string as null;
      reading any other value as a date is the library's own rule, given as
      `castDate`. */
  function Cast(env: Env, f: Field, v: Value): (r: Option<Stored>)
    ensures r.Some? ==> Fits(f, r.value)
    ensures v == Null ==> r == Some(Nil)
    ensures f !in {Open, CreatedOn, UpdatedOn} ==> r == Some(CastText(v))
  {
    match f
    case Open => CastFlag(v)
    case CreatedOn | UpdatedOn =>
      if v == Null || v == Str("") then Some(Nil)
      else if env.castDate(v).Some? then Some(Time(env.castDate(v).value))
      else None
    case _ => Some(CastText(v))
  }

  /** Casts every value of a request map; `None` when any cast fails. */
  function CastAll(env: Env, m: map<Field, Value>): (r: Option<map<Field, Stored>>)
    ensures r.Some? <==> forall f :: f in m ==> Cast(env, f, m[f]).Some?
    ensures r.Some? ==> r.value.Keys == m.Keys && AllFit(r.value)
    ensures r.Some? ==> forall f :: f in m ==> r.value[f] == Cast(env, f, m[f]).value
  {
    if forall f :: f in m ==> Cast(env, f, m[f]).Some? then
      Some(map f | f in m :: Cast(env, f, m[f]).value)
    else None
  }

  /** A stored issue: one stored value per schema field. */
  datatype Issue = Issue(
    title: Stored,
    text: Stored,
    createdBy: Stored,
    assignedTo: Stored,
    statusText: Stored,
    open: Stored,
    createdOn: Stored,
    updatedOn: Stored,
    project: Stored)

  /** The value an issue holds in field `f`. */
  function Get(i: Issue, f: Field): Stored {
    match f
    case IssueTitle => i.title
    case IssueText => i.text
    case CreatedBy => i.createdBy
    case AssignedTo => i.assignedTo
    case StatusText => i.statusText
    case Open => i.open
    case CreatedOn => i.createdOn
    case UpdatedOn => i.updatedOn
    case Project => i.project
  }

  /** Every field of the issue holds a value of its schema type. */
  ghost predicate Typed(i: Issue) {
    forall f :: Fits(f, Get(i, f))
  }

  function ValueOr(u: map<Field, Stored>, f: Field, prev: Stored): Stored {
    if f in u then u[f] else prev
  }

  /** Sets every field that the cast update document `u` names to the
      value `u` gives it; all other fields keep their value. */
  function Apply(i: Issue, u: map<Field, Stored>): (r: Issue)
    requires AllFit(u)
    ensures forall f :: Get(r, f) == if f in u then u[f] else Get(i, f)
    ensures Typed(i) ==> Typed(r)
  {
    i.(title := ValueOr(u, IssueTitle, i.title),
       text := ValueOr(u, IssueText, i.text),
       createdBy := ValueOr(u, CreatedBy, i.createdBy),
       assignedTo := ValueOr(u, AssignedTo, i.assignedTo),
       statusText := ValueOr(u, StatusText, i.statusText),
       open := ValueOr(u, Open, i.open),
       createdOn := ValueOr(u, CreatedOn, i.createdOn),
       updatedOn := ValueOr(u, UpdatedOn, i.updatedOn),
       project := ValueOr(u, Project, i.project))
  }

  /** Equality on every pair of a cast filter, joined by AND. */
  predicate Matches(i: Issue, filter: map<Field, Stored>) {
    forall f :: f in filter ==> Get(i, f) == filter[f]
  }

  /** An issue together with its identifier, as the store returns it. */
  datatype Doc = Doc(id: Id, issue: Issue)

  /** The document store: issues by identifier, and the identifiers in the
      order they were inserted (the store's natural order). */
  datatype Store = Store(docs: map<Id, Issue>, order: seq<Id>)

  predicate Distinct(ids: seq<Id>) {
    forall i, j :: 0 <= i < j < |ids| ==> ids[i] != ids[j]
  }

  /** The store invariant every request keeps: `order` lists each stored
      identifier exactly once, and every stored issue is typed. */
  ghost predicate Valid(s: Store) {
    && Distinct(s.order)
    && (forall id :: id in s.docs <==> id in s.order)
    && (forall id :: id in s.docs ==> Typed(s.docs[id]))
  }

  predicate NonEmptyText(v: Stored) {
    v.Text? && v.s != ""
  }

  /** The three fields a create request must supply hold non-empty
      strings. */
  predicate WellFormed(i: Issue) {
    NonEmptyText(i.title) && NonEmptyText(i.text) && NonEmptyText(i.createdBy)
  }

  ghost predicate AllWellFormed(s: Store) {
    forall id :: id in s.docs ==> WellFormed(s.docs[id])
  }

  /** A request body: the `_id` key, and the schema fields it carries. */
  datatype Body = Body(id: Option<string>, fields: map<Field, Value>)

  /** Whether the body's `_id` is truthy. */
  predicate HasId(b: Body) {
    b.id.Some? && b.id.value != ""
  }

  /** What a handler depends on besides the store and the request: whether
      the store is connected, the identifier syntax check, the library's
      reading of a non-null value as a date, and whether the store round
      trip of this request throws. */
  datatype Env = Env(ready: bool, isValid: Id -> bool, castDate: Value -> Option<int>, fault: bool)

  /** What a handler answers. */
  datatype Outcome =
    | Unavailable
    | DatabaseError
    | RequiredMissing
    | Created(doc: Doc)
    | Found(docs: seq<Doc>)
    | MissingId
    | NoUpdateFields(id: Id)
    | CouldNotUpdate(id: Id)
    | Updated(id: Id)
    | CouldNotDelete(id: Id)
    | Deleted(id: Id)

  /** A handler's answer and the store after it. */
  datatype Step = Step(outcome: Outcome, store: Store)
}

=== FILE: issue_properties.dfy ===
/** Properties that relate several handler calls, or a handler call and the
    response it sends. */
module IssueProperties {
  import opened IssueModel
  import opened IssueApi
  import opened IssueJson

  // --------------------------------------------------- readiness guard

  /** With the store not connected, every handler answers 503 whatever the
      request says, and the store is untouched. */
  lemma GuardComesFirst(s: Store, env: Env, project: string, body: Body,
                        filter: map<Field, string>, newId: Id, t0: nat, t1: nat, now: nat)
    requires !env.ready
    ensures Create(s, env, project, body, newId, t0, t1) == Step(Unavailable, s)
    ensures Query(s, env, project, filter) == Step(Unavailable, s)
    ensures Update(s, env, body, now) == Step(Unavailable, s)
    ensures Delete(s, env, body) == Step(Unavailable, s)
    ensures Render(Unavailable) == Response(503, JObj(map[
      "error" := JStr("database unavailable"), "message" := JStr(UnavailableMessage)]))
  {
  }

  // ------------------------------------------------------------ create

  /** A create request lacking a required field gets exactly the one-key
      error object, with status 200. */
  lemma CreateMissingResponse(s: Store, env: Env, project: string, body: Body,
                              newId: Id, t0: nat, t1: nat)
    requires env.ready && MissingRequired(body.fields)
    ensures Render(Create(s, env, project, body, newId, t0, t1).outcome)
      == Response(200, JObj(map["error" := JStr("required field(s) missing")]))
  {
  }

  /** The create response echoes the five string fields of the request,
      cast to strings, and
      carries the new identifier, `open` and both timestamps, but not the
      project. */
  lemma CreateEchoes(s: Store, env: Env, project: string, body: Body,
                     newId: Id, t0: nat, t1: nat)
    requires Create(s, env, project, body, newId, t0, t1).outcome.Created?
    ensures
      var fields := body.fields;
      var m := Render(Create(s, env, project, body, newId, t0, t1).outcome).body.members;
      && m["_id"] == JStr(newId)
      && m[Name(IssueTitle)] == Encode(CastText(fields[IssueTitle]))
      && m[Name(IssueText)] == Encode(CastText(fields[IssueText]))
      && m[Name(CreatedBy)] == Encode(CastText(fields[CreatedBy]))
      && m[Name(AssignedTo)] == (if Lacks(fields, AssignedTo) then JStr("")
                                 else Encode(CastText(fields[AssignedTo])))
      && m[Name(StatusText)] == (if Lacks(fields, StatusText) then JStr("")
                                 else Encode(CastText(fields[StatusText])))
      && m[Name(Open)] == JBool(true)
      && m[Name(CreatedOn)] == JDate(t0) && m[Name(UpdatedOn)] == JDate(t1)
      && Name(Project) !in m
  {
  }

  // ------------------------------------------------------------- query

  lemma {:induction false} SelectAppend(order: seq<Id>, x: Id, docs: map<Id, Issue>,
                                        filter: map<Field, Stored>)
    ensures Select(order + [x], docs, filter) ==
      Select(order, docs, filter)
      + (if x in docs && Matches(docs[x], filter) then [Doc(x, docs[x])] else [])
  {
    if order == [] {
      assert order + [x] == [x];
    } else {
      assert (order + [x])[1..] == order[1..] + [x];
      SelectAppend(order[1..], x, docs, filter);
    }
  }

  lemma {:induction false} SelectIgnoresOthers(order: seq<Id>, x: Id, i: Issue,
                                               docs: map<Id, Issue>, filter: map<Field, Stored>)
    requires x !in order
    ensures Select(order, docs[x := i], filter) == Select(order, docs, filter)
  {
    if order != [] {
      assert x !in order[1..];
      SelectIgnoresOthers(order[1..], x, i, docs, filter);
    }
  }

  /** After a create, a query of the new issue's project that it matches
      returns what it returned before, followed by the new issue. */
  lemma CreateThenQuery(s: Store, env: Env, project: string, body: Body,
                        newId: Id, t0: nat, t1: nat,
                        env2: Env, filter: map<Field, string>)
    requires Valid(s)
    requires Create(s, env, project, body, newId, t0, t1).outcome.Created?
    requires env2.ready && !env2.fault && FilterCasts(env2, filter)
    ensures
      var step := Create(s, env, project, body, newId, t0, t1);
      var d := step.outcome.doc;
      Query(step.store, env2, project, filter).outcome.docs ==
        Query(s, env2, project, filter).outcome.docs
        + (if Matches(d.issue, CastFilter(env2, filter)) then [d] else [])
  {
    var step := Create(s, env, project, body, newId, t0, t1);
    var d := step.outcome.doc;
    var f := QueryFilter(env2, filter, project).value;
    SelectAppend(s.order, newId, s.docs[newId := d.issue], f);
    SelectIgnoresOthers(s.order, newId, d.issue, s.docs, f);
  }

  /** A `project` pair in the query string makes no difference: the path
      parameter wins. */
  lemma ProjectOverridden(s: Store, env: Env, project: string,
                          filter: map<Field, string>, v: string)
    ensures Query(s, env, project, filter[Project := v]) == Query(s, env, project, filter)
  {
    assert filter[Project := v][Project := project] == filter[Project := project];
  }

  // ------------------------------------------------------------ update

  /** An update whose store round trip fails answers exactly as one whose
      identifier is not stored: both are "could not update". */
  lemma UpdateMasksFailure(s: Store, env: Env, body: Body, now: nat)
    requires env.ready && HasId(body) && env.isValid(body.id.value)
    requires Sent(body.fields) != map[]
    requires env.fault || body.id.value !in s.docs
    ensures Update(s, env, body, now) == Step(CouldNotUpdate(body.id.value), s)
    ensures Render(Update(s, env, body, now).outcome)
      == Response(200, JObj(map["error" := JStr("could not update"), "_id" := JStr(body.id.value)]))
  {
  }

  /** Sending the same update twice at the same clock reading leaves the
      store as the first one left it. */
  lemma UpdateIdempotent(s: Store, env: Env, body: Body, now: nat)
    requires Update(s, env, body, now).outcome.Updated?
    ensures
      var s1 := Update(s, env, body, now).store;
      Update(s1, env, body, now) == Step(Updated(body.id.value), s1)
  {
    var id := body.id.value;
    var s1 := Update(s, env, body, now).store;
    var s2 := Update(s1, env, body, now).store;
    assert Update(s1, env, body, now).outcome.Updated?;
    var a, b := s1.docs[id], s2.docs[id];
    assert Get(a, IssueTitle) == Get(b, IssueTitle) && Get(a, IssueText) == Get(b, IssueText);
    assert Get(a, CreatedBy) == Get(b, CreatedBy) && Get(a, AssignedTo) == Get(b, AssignedTo);
    assert Get(a, StatusText) == Get(b, StatusText) && Get(a, Open) == Get(b, Open);
    assert Get(a, CreatedOn) == Get(b, CreatedOn) && Get(a, UpdatedOn) == Get(b, UpdatedOn);
    assert Get(a, Project) == Get(b, Project);
    assert a == b;
    assert s2.docs == s1.docs;
  }

  /** A successful update moves `updated_on` to the clock reading, whatever
      the body says about it, and keeps `created_on` unless the body sends
      it. */
  lemma UpdateRefreshesTimestamp(s: Store, env: Env, body: Body, now: nat)
    requires Update(s, env, body, now).outcome.Updated?
    ensures
      var id := body.id.value;
      var after := Update(s, env, body, now).store.docs[id];
      && after.updatedOn == Time(now)
      && (CreatedOn !in Sent(body.fields) ==> after.createdOn == s.docs[id].createdOn)
  {
    var id := body.id.value;
    var after := Update(s, env, body, now).store.docs[id];
    assert Get(after, UpdatedOn) == Time(now);
    assert Get(after, CreatedOn) == after.createdOn;
  }

  /** An environment whose date cast reads a number as milliseconds from
      the epoch. */
  function NumericDates(): Env {
    Env(true, (id: Id) => true, (v: Value) => if v.Num? then Some(v.n) else None, false)
  }

  /** One stored issue `a`, created at clock reading 1. */
  function OneIssue(): Store {
    Store(map["a" := Issue(Text("t"), Text("x"), Text("c"), Text(""), Text(""),
                           Flag(true), Time(1), Time(1), Text("p"))], ["a"])
  }

  /** An update may carry `created_on`: the route applies it like any other
      field, so `created_on <= updated_on` is not kept by updates. */
  lemma UpdateCanReorderTimestamps()
    ensures
      var step := Update(OneIssue(), NumericDates(), Body(Some("a"), map[CreatedOn := Num(5)]), 2);
      && step.outcome == Updated("a")
      && step.store.docs["a"].createdOn == Time(5)
      && step.store.docs["a"].updatedOn == Time(2)
  {
    var body := Body(Some("a"), map[CreatedOn := Num(5)]);
    assert CreatedOn in Sent(body.fields);
    assert UpdateCasts(NumericDates(), body.fields);
    var after := Update(OneIssue(), NumericDates(), body, 2).store.docs["a"];
    assert Get(after, CreatedOn) == Time(5);
    assert Get(after, UpdatedOn) == Time(2);
  }

  /** Only the empty string is dropped from an update: a null title is
      sent, so a body whose one field is a null title is not "no update
      field(s) sent" but a successful update that leaves the issue without
      a title. */
  lemma UpdateNullClearsTitle()
    ensures
      var step := Update(OneIssue(), NumericDates(), Body(Some("a"), map[IssueTitle := Null]), 2);
      && AllWellFormed(OneIssue())
      && step.outcome == Updated("a")
      && step.store.docs["a"].title == Nil
      && !AllWellFormed(step.store)
  {
    var body := Body(Some("a"), map[IssueTitle := Null]);
    assert WellFormed(OneIssue().docs["a"]);
    assert IssueTitle in Sent(body.fields);
    assert UpdateCasts(NumericDates(), body.fields);
    var after := Update(OneIssue(), NumericDates(), body, 2).store.docs["a"];
    assert Get(after, IssueTitle) == Nil;
    assert !WellFormed(after);
  }

  /** A falsy value other than the empty string is sent and cast: `false`
      for the issue text is stored as the string "false". */
  lemma UpdateCastsFalse()
    ensures
      var step := Update(OneIssue(), NumericDates(), Body(Some("a"), map[IssueText := Bool(false)]), 2);
      && step.outcome == Updated("a")
      && step.store.docs["a"].text == Text("false")
  {
    var body := Body(Some("a"), map[IssueText := Bool(false)]);
    assert IssueText in Sent(body.fields);
    assert UpdateCasts(NumericDates(), body.fields);
    var after := Update(OneIssue(), NumericDates(), body, 2).store.docs["a"];
    assert Get(after, IssueText) == Text("false");
  }

  // ------------------------------------------------------------ delete

  lemma {:induction false} WithoutLast(ids: seq<Id>, x: Id)
    requires x !in ids
    ensures Without(ids + [x], x) == ids
  {
    if ids == [] {
      assert [] + [x] == [x];
    } else {
      assert (ids + [x])[1..] == ids[1..] + [x];
      assert x !in ids[1..];
      WithoutLast(ids[1..], x);
    }
  }

  /** Deleting the issue a create just stored gives back the store as it
      was before the create. */
  lemma CreateThenDelete(s: Store, env: Env, project: string, body: Body,
                         newId: Id, t0: nat, t1: nat, env2: Env, body2: Body)
    requires Valid(s)
    requires Create(s, env, project, body, newId, t0, t1).outcome.Created?
    requires newId != "" && env2.ready && !env2.fault && env2.isValid(newId)
    requires body2.id == Some(newId)
    ensures
      var s1 := Create(s, env, project, body, newId, t0, t1).store;
      Delete(s1, env2, body2) == Step(Deleted(newId), s)
  {
    var s1 := Create(s, env, project, body, newId, t0, t1).store;
    WithoutLast(s.order, newId);
    assert s1.docs - {newId} == s.docs;
  }

  /** Deleting the same identifier a second time is "could not delete". */
  lemma DeleteTwice(s: Store, env: Env, body: Body)
    requires Delete(s, env, body).outcome.Deleted?
    ensures
      var s1 := Delete(s, env, body).store;
      Delete(s1, env, body) == Step(CouldNotDelete(body.id.value), s1)
  {
  }

  /** After a delete no query returns the deleted issue, and every other
      issue a query returned before it still returns. */
  lemma DeleteThenQuery(s: Store, env: Env, body: Body,
                        env2: Env, project: string, filter: map<Field, string>)
    requires Delete(s, env, body).outcome.Deleted?
    requires Query(s, env2, project, filter).outcome.Found?
    ensures
      var s1 := Delete(s, env, body).store;
      var before := Query(s, env2, project, filter).outcome.docs;
      var after := Query(s1, env2, project, filter).outcome.docs;
      && (forall d :: d in after ==> d.id != body.id.value)
      && (forall d :: d in before && d.id != body.id.value ==> d in after)
  {
  }
}
